=== FILE: README.md ===
# Terminal: a Dafny model of the portfolio's simulated shell

The portfolio's terminal page (`src/components/Terminal.tsx`) is a small shell. It opens with a
title banner and a scripted "exploit" boot sequence revealed line by line. It then shows a
`phantom@portfolio:~$` prompt. A submitted line is echoed by a typewriter animation. When the
echo completes, `processCommand` runs:

- the trimmed line is split on single spaces;
- its first piece, lower-cased, is looked up by exact name in a table of seven commands:
  `help`, `about`, `projects`, `skills`, `contact`, `clear` and `home`;
- a hit runs that command, and a miss appends one error line naming the token.

While anything is being revealed the prompt is hidden, so nothing can be typed or submitted.
ArrowUp and ArrowDown browse the history of submitted lines.

The model is a state machine over immutable states with pure transition functions:

| file | module | models |
|---|---|---|
| `wrappers.dfy` | `Wrappers` | `Option` |
| `jsstring.dfy` | `JsString` | the JavaScript string operations the shell uses: `trim`, `split(' ')`, `join` and `toLowerCase` |
| `typewriter.dfy` | `TypeWriter` | the character-by-character reveal and its completion callback |
| `linebyline.dfy` | `LineByLine` | the line-by-line reveal built from one `TypeWriter` per line |
| `history.dfy` | `History` | the input buffer, the history and `handleKeyDown`'s cursor |
| `commands.dfy` | `Commands` | the command table, the canned texts and `processCommand`'s dispatch, with effects as data (`AppendSuccess`, `Reset`, `Navigate`, `AppendError`) |
| `terminal.dfy` | `Terminal` | the page: transcript, input line, `isTyping` flag, the one reveal in progress, and the events `Edit`, `KeyDown`, `Submit` and `Step` |
| `scenarios.dfy` | `Scenarios` | concrete runs: boot, `help`, an unknown command, `clear`, `home`, a blank line, and the token edge cases |

Timers become an abstract `Step` event. Each `Step` is one call of `TypeWriter`'s inner `type`
routine. The first call happens when a `TypeWriter`'s effect runs: on mount, or, for
`LineByLine`'s later lines, when the re-rendered `TypeWriter` receives the next line's text and
its effect runs again (`Terminal.tsx:54`, `Terminal.tsx:61`, `Terminal.tsx:112-117`). Every later
call happens when the random-delay timer fires. A text of length `L` therefore reveals in `L`
steps and fires its completion callback on step `L + 1`.

`LineByLine` ignores a completion while its `mountedRef` is false (`Terminal.tsx:84-92`). React
runs the child `TypeWriter`'s mount effect before the parent's, so only the first line's first
step can hit that guard. That step completes exactly when the first line is empty. In that case
the completion is dropped and the component never finishes. The model keeps the flag as
`LineByLine.State.ready` and proves both outcomes (`LineByLine.StartFires`).

There is only ever one reveal in progress. The `Reveal` datatype is one of `Idle`, `Boot`,
`Echo` or `Reply`, and `Terminal.Valid` ties it to the last transcript line and to `typing`.

The text each content command prints is part of the state (`State.texts`). The page mounts with
`Init(Canned)`, where `Canned` holds the source's box texts. The general proofs therefore hold
for any texts, and the concrete box texts appear only where a lemma is about them
(`Scenarios.HelpMentionsAbout`).

Some details of how a line is handled:

- The echo line is the prompt `phantom@portfolio:~$ ` followed by the raw input
  (`Terminal.tsx:405`).
- The command name ends at the first space. Whitespace other than a space that comes before
  the first space is part of the token (`Terminal.tsx:377`; `Scenarios.TabIsNotASeparator`).
- The error line names the lower-cased token (`Terminal.tsx:389`).
- `home` only navigates. It appends nothing and never clears `isTyping` (`Terminal.tsx:370-372`).

## Model

| member | source | states |
|---|---|---|
| JsString.TrimBounds | src/components/Terminal.tsx:377 | `trim` keeps one span: everything before it and after it is JavaScript whitespace, and a non-empty span starts and ends with a non-whitespace character |
| JsString.Trim | src/components/Terminal.tsx:377 | `trim` returns a part of the line no longer than it that, unless empty, starts and ends with a non-whitespace character; `TrimBounds` places that part and `TrimPadded` shows a word survives it |
| JsString.TrimPadded | src/components/Terminal.tsx:377 | trimming a word preceded only by whitespace keeps the word at the front, followed by a prefix of whatever came after it in the line |
| JsString.TrimEmptyIffBlank | src/components/Terminal.tsx:399 | `input.trim()` is empty exactly when every character of the input is whitespace (both directions) |
| JsString.Split | src/components/Terminal.tsx:377 | `split(' ')` always yields at least one piece, and no piece contains the separator |
| JsString.SplitJoin | src/components/Terminal.tsx:377 | joining the pieces of a split with the same separator gives back the original string, so nothing is lost or reordered |
| JsString.FirstToken | src/components/Terminal.tsx:377 | `args[0]` holds no space; `FirstTokenIsSpaceFreePrefix` shows it is the line's longest space-free prefix |
| JsString.FirstTokenIsSpaceFreePrefix | src/components/Terminal.tsx:377 | `args[0]` is the longest space-free prefix of the trimmed line: a prefix with no space, followed by a space or the end |
| JsString.FirstTokenOfWord | src/components/Terminal.tsx:377 | a space-free word followed by a space or by the end of the line is `args[0]` |
| JsString.Join | src/components/Terminal.tsx:273 | `join` starts with the first part, followed by the separator when there is a second part; `SplitJoin` and `JoinPlacesParts` place every part |
| JsString.JoinPlacesParts | src/components/Terminal.tsx:273 | `join('\n')` keeps every line intact, starting at the offset after all earlier lines and their separators |
| JsString.LowerChar | src/components/Terminal.tsx:378 | one character of `toLowerCase`: an ASCII or Latin-1 capital becomes the letter 32 code points on, the KELVIN SIGN becomes `k`, nothing else changes, the result is never a capital, and whitespace stays whitespace |
| JsString.ToLower | src/components/Terminal.tsx:378 | `toLowerCase` keeps the length and lower-cases each character on its own, so no capital is left and nothing but capitals changes |
| JsString.ToLowerAnyCase | src/components/Terminal.tsx:378 | a lower-case ASCII word typed with any of its letters in upper case lower-cases back to that word |
| JsString.ToLowerKeepsLower | src/components/Terminal.tsx:378 | a string without capitals is its own lower case |
| JsString.ToLowerIdempotent | src/components/Terminal.tsx:378 | lower-casing twice is the same as lower-casing once |
| Commands.Framed | src/components/Terminal.tsx:270-277 | a content command's text starts and ends with a newline and holds its box lines joined by newlines in between |
| Commands.ErrorText | src/components/Terminal.tsx:389 | the error line is the fixed prefix `Command not found: `, then exactly the token, then the fixed hint suffix |
| Commands.TableNamesUnique | src/components/Terminal.tsx:252-374 | no two commands in the table share a name |
| Commands.FindFrom | src/components/Terminal.tsx:381 | the search from position `k` returns the first position holding the name, and returns nothing exactly when no later command has it |
| Commands.Find | src/components/Terminal.tsx:381 | `commands.find` by exact name: the first matching command, or none exactly when no command has that name |
| Commands.FindUnique | src/components/Terminal.tsx:381 | with unique names, looking up a command's own name finds that command |
| Commands.Dispatch | src/components/Terminal.tsx:376-394 | the effect is the error for the token exactly when no command has the token as its name; otherwise it is the effect of the one command that does |
| Commands.Token | src/components/Terminal.tsx:377-378 | the command name contains no space and no capital and is no longer than the line; `TokenOfLine` states which word it is |
| Commands.TokenOfLine | src/components/Terminal.tsx:377-378 | for a word after leading whitespace, followed by trailing whitespace of any kind or by a space and anything else, the token is the lower-cased word |
| Commands.TokenOfLowerWord | src/components/Terminal.tsx:377-378 | a lower-case word on its own is its own token |
| Commands.DispatchAnyCase | src/components/Terminal.tsx:377-384 | a command's name in any mix of upper and lower case, after any whitespace and followed by nothing but whitespace or by a space and arguments, runs that command |
| Commands.DispatchByName | src/components/Terminal.tsx:381-384 | every command in the table is run by typing its name |
| Commands.DispatchKinds | src/components/Terminal.tsx:252-374 | the five content names print a box, `clear` resets to the banner and its confirmation, `home` only navigates, and every other token is an error (each both directions) |
| TypeWriter.Displayed | src/components/Terminal.tsx:42 | the text on screen is always a prefix of the full text, and the whole text once the reveal is complete |
| TypeWriter.Start | src/components/Terminal.tsx:33-38 | a fresh reveal shows nothing and is not complete |
| TypeWriter.Step | src/components/Terminal.tsx:40-51 | a step grows the shown prefix by exactly one character while text remains; completion fires exactly when the whole text is already shown; a complete reveal no longer changes |
| TypeWriter.Run | src/components/Terminal.tsx:40-54 | any number of steps keeps the reveal consistent and its text unchanged |
| TypeWriter.RunShowsPrefix | src/components/Terminal.tsx:40-47 | after `n` steps short of completion, exactly the first `n` more characters are on screen |
| TypeWriter.RunCompletes | src/components/Terminal.tsx:48-51 | after its remaining steps the reveal is complete and shows the whole text |
| TypeWriter.FiresExactlyOnce | src/components/Terminal.tsx:48-51 | over any run, the completion callback fires once if the run reaches the last remaining step, and never otherwise |
| TypeWriter.NeverFiresAgain | src/components/Terminal.tsx:48-51 | a complete reveal never fires its callback again |
| LineByLine.Start | src/components/Terminal.tsx:79-89 | a fresh component has completed no line and has not yet seen its mount effect; a reveal is running exactly when there is at least one line, and the first step will be dropped exactly when the first line is empty |
| LineByLine.Step | src/components/Terminal.tsx:91-101 | a step keeps the completed lines a growing prefix of the lines; completion fires only when the last line's reveal completes after the mount effect; the mount-time completion of an empty first line is dropped and stops the component; a component with no reveal running does nothing |
| LineByLine.Displayed | src/components/Terminal.tsx:103-121 | the completed lines are on screen in full, in order, followed by a prefix of the current line, which is whole once the last line is done |
| LineByLine.StepConsumesOne | src/components/Terminal.tsx:91-101 | each step of a running component whose completion is not dropped uses up one remaining step, and it fires exactly on the last one |
| LineByLine.FiresExactlyOnce | src/components/Terminal.tsx:91-96 | once a component is past a dropped completion, its callback fires exactly once, after its remaining steps |
| LineByLine.NeverFiresInactive | src/components/Terminal.tsx:108 | a component with no reveal running, an empty list of lines or a stalled one in particular, never completes |
| LineByLine.StartRemaining | src/components/Terminal.tsx:79-92 | a fresh component takes one step per character and one per line to complete, and drops its first step's completion exactly when the first line is empty |
| LineByLine.StartFires | src/components/Terminal.tsx:84-96 | a fresh component fires exactly once, after one step per character and one per line, when its first line is not empty, and never when it is empty |
| LineByLine.DoneShowsAll | src/components/Terminal.tsx:105-110 | once the last line is done, every line is on screen in full |
| History.Record | src/components/Terminal.tsx:414-416 | submitting puts the raw line at the head of the history, empties the buffer and resets the cursor to -1 |
| History.Edit | src/components/Terminal.tsx:509-510 | typing changes only the buffer and keeps the cursor in range |
| History.Up | src/components/Terminal.tsx:429-435 | ArrowUp keeps the cursor in range; it changes nothing exactly at the oldest entry; otherwise it moves one entry back and shows that entry |
| History.Down | src/components/Terminal.tsx:436-446 | ArrowDown keeps the cursor in range; it changes nothing at -1; from the newest entry it goes to -1 with an empty buffer; otherwise it moves one entry forward and shows it |
| History.KeyDown | src/components/Terminal.tsx:428-447 | only the two arrow keys change the line; the history never changes and the cursor stays in [-1, length-1] |
| History.UpRecalls | src/components/Terminal.tsx:429-435 | `n` ArrowUps recall the `n`-th entry further back and stop at the oldest one |
| History.UpFrom | src/components/Terminal.tsx:429-435 | from an entry on screen, `n` ArrowUps move `n` entries back, clamped at the oldest |
| History.DownFrom | src/components/Terminal.tsx:436-446 | from an entry on screen, `n` ArrowDowns move `n` entries forward, the last possible one onto the empty live line |
| History.UpThenDown | src/components/Terminal.tsx:428-447 | when the oldest entry is not passed on the way up (the cursor plus `n` stays below the history's length), `n` ArrowUps then `n` ArrowDowns return to the starting cursor, with that entry (or the empty line) on screen |
| Terminal.Init | src/components/Terminal.tsx:128-183 | the mounted page is consistent: banner, then the boot sequence revealing with `typing` set, and an empty input line |
| Terminal.HandleSubmit | src/components/Terminal.tsx:397-416 | a blank line changes nothing; otherwise one echo line of prompt and raw line is appended, the raw line heads the history, the buffer empties, the cursor resets and `typing` is set |
| Terminal.ProcessCommand | src/components/Terminal.tsx:376-395 | sets `typing`; a content command or unknown token appends exactly one line and keeps every earlier one; `clear` leaves exactly banner and confirmation; `home` appends nothing and navigates |
| Terminal.StepReveal | src/components/Terminal.tsx:404-408 | a timer step keeps the page consistent and the input line unchanged, and does nothing when no reveal is in progress |
| Terminal.Next | src/components/Terminal.tsx:502-518 | every event keeps the page consistent: one reveal at a time, `typing` set exactly while one runs or after navigating |
| Terminal.Run | src/components/Terminal.tsx:502-518 | any sequence of events keeps the page consistent |
| Terminal.BlankSubmitIsNoOp | src/components/Terminal.tsx:399 | submitting an empty or whitespace-only line leaves the whole state unchanged |
| Terminal.SubmitRecords | src/components/Terminal.tsx:401-416 | a non-blank submit appends exactly one input line, makes the history the raw line followed by the old history, empties the buffer and sets the cursor to -1 |
| Terminal.TranscriptChange | src/components/Terminal.tsx:252-395 | no event removes or alters an earlier transcript line; the one exception is the timer step that completes the echo of a line whose command is `clear`, which leaves exactly the banner and its confirmation |
| Terminal.EditKeepsPage | src/components/Terminal.tsx:428-447 | typing and the arrow keys leave the transcript, the reveal in progress, `typing` and navigation unchanged |
| Terminal.NavigatedIsFinal | src/components/Terminal.tsx:367-373 | after `home` navigates, `typing` stays set and no event changes anything |
| Terminal.EchoProgress | src/components/Terminal.tsx:402-412 | while an echo reveals, each step shows one more character and nothing else changes |
| Terminal.EchoCompletes | src/components/Terminal.tsx:404-408 | after its remaining steps the echo has completed and exactly the echoed command has run |
| Terminal.ReplyCompletes | src/components/Terminal.tsx:174-181 | a command's output and the boot sequence each reveal for their remaining steps, change nothing else, and then bring the prompt back |
| Terminal.SubmitThenDispatch | src/components/Terminal.tsx:397-412 | a non-blank line is echoed for one step per character of prompt and line plus one, and then exactly the raw line is dispatched |
| Scenarios.BootScenario | src/components/Terminal.tsx:165-183 | the page opens with the banner and the boot lines, and the prompt appears once they are revealed |
| Scenarios.HelpMentionsAbout | src/components/Terminal.tsx:257-269 | the help box mentions `about` |
| Scenarios.HelpScenario | src/components/Terminal.tsx:252-278 | `help` appends its echo and one success line with the help text, and the prompt returns once that is revealed |
| Scenarios.FooIsUnknown | src/components/Terminal.tsx:381-385 | `foo` names no command |
| Scenarios.FooMessage | src/components/Terminal.tsx:389 | the error line for `foo` begins `Command not found: foo` |
| Scenarios.UnknownScenario | src/components/Terminal.tsx:385-393 | `foo` appends its echo and exactly one error line naming `foo` |
| Scenarios.ClearScenario | src/components/Terminal.tsx:336-366 | `clear` leaves exactly the banner and the confirmation line, and is still recorded in the history |
| Scenarios.HomeScenario | src/components/Terminal.tsx:367-373 | `home` appends only its echo, navigates, and leaves `typing` set |
| Scenarios.BlankScenario | src/components/Terminal.tsx:399 | an empty or blank line changes nothing |
| Scenarios.CaseAndArgumentsIgnored | src/components/Terminal.tsx:377-384 | `  HELP me ` runs `help` |
| Scenarios.KelvinSignRunsSkills | src/components/Terminal.tsx:378 | `S` + KELVIN SIGN + `ILLS` lower-cases to `skills` and runs it |
| Scenarios.TrailingTabIgnored | src/components/Terminal.tsx:377 | `help` followed by a tab runs `help`: trailing whitespace of any kind is trimmed |
| Scenarios.TabIsNotASeparator | src/components/Terminal.tsx:377 | `help` + TAB + `me` is an unknown command: only a space ends the name |
| Scenarios.RecallScenario | src/components/Terminal.tsx:428-447 | after submitting `a` then `b`, ArrowUp recalls `b` then `a` and stops; ArrowDown walks back to `b`, then the empty line, and stops |

## Left out

- Rendering: the JSX, framer-motion animations, CSS classes, the blinking cursor (`showCursor`, `isComplete`), focusing the input on click, and the header and footer. Only the transcript's data is modelled: each line's kind and content.
- The title banner is a `<pre>` element, not a typewriter. The model records it as the fixed entry `TitleArt`; the art itself is kept only as the constant `Terminal.TitleBanner`.
- The random inter-character delays and the two speed tiers (`Terminal.tsx:44-47`) are floating-point timing. They become one abstract `Step` per timer firing.
- The scroll-to-bottom timeout (`Terminal.tsx:418-425`), the key-press sound (`Terminal.tsx:511`) and the router: navigation is the flag `navigated`, and nothing after leaving the page is modelled.
- Timer cancellation on unmount (`Terminal.tsx:56-60`). Nothing is unmounted while its timer is pending: `clear` discards the echo only after the echo has completed, and after navigation the page is gone.
- Between two lines of a `LineByLine`, the re-rendered `TypeWriter` still holds the previous line's text until its effect runs again. The source paints that text for a frame before the new line's reveal starts. The model shows the new line's empty prefix instead.
- React's asynchronous state updates and closures: each event handler is one atomic transition.
- Lengths are counted in Unicode code points, whereas JavaScript counts UTF-16 code units. A character outside the Basic Multilingual Plane takes two typewriter steps in the source and one here.
- JsString.LowerChar: lower-cases only ASCII capitals, Latin-1 capitals and the KELVIN SIGN (to `k`). Other Unicode case mappings are left as the identity. Among them is U+0130, whose lower case is `i` followed by U+0307. Every character left unmapped keeps a non-ASCII character in its JavaScript lower case, so a token holding one names no command either way. Which command runs is therefore unaffected; only an unknown token's spelling in the error line can differ.
- JsString.ToLower: inherits the coverage of `JsString.LowerChar`.
- Terminal.Init: the box texts are a parameter (`Init(Canned)` is the page). `Canned` is a constant of the model and no lemma states anything about all five texts.
- The other files of the repository: the page's other sections, the loading screen, the custom cursor, the contact form and the build configuration are not part of this model.

=== FILE: commands.dfy ===
/**
  The command table and `processCommand`'s dispatch: the input is trimmed, split on single spaces,
  and its first piece, lower-cased, is looked up by exact name. A hit yields that command's effect;
  a miss yields one error line naming the token. The effects are data, applied to the transcript by
  the terminal.
 */
module Commands {
  import opened Wrappers
  import opened JsString

  /** The five information boxes a content command can print. */
  datatype Box = HelpBox | AboutBox | ProjectsBox | SkillsBox | ContactBox

  /** What running a command does to the terminal. */
  datatype Effect =
    | AppendSuccess(box: Box)            // one `success` line revealing `BoxText(box)`
    | Reset(text: string)                // the transcript becomes the banner and one `output` line
    | Navigate                           // leave for the portfolio's root route
    | AppendError(token: string)         // one `error` line naming the unknown token

  datatype Command = Command(name: string, description: string, effect: Effect)

  /** The scripted boot sequence revealed line by line when the terminal opens. */
  const BootLines: seq<string> := [
    "msf exploit(linux/ssh/libssh_auth_bypass) > exploit",
    "[*] Started reverse TCP handler on 10.10.14.1:4444",
    "[*] Attempting to bypass authentication...",
    "[*] Exploit successful, sending payload...",
    "[*] Meterpreter session 1 opened (10.10.14.1:4444 -> 10.10.14.22:58342)",
    "meterpreter > shell"
  ]

  /** The lines of each box, as the source lists them. */
  function BoxLines(box: Box): seq<string>
  {
    match box
    case HelpBox =>
      [
        "╭─ Available Commands ───────────────────╮",
        "│                                       ",
        "│  help     - Display this help message ",
        "│  " + "about" + "    - Display portfolio info    ",  // pieced, so `about` has a known offset
        "│  projects - List project details      ",
        "│  skills   - Display technical skills  ",
        "│  contact  - Show contact information  ",
        "│  clear    - Clear terminal screen     ",
        "│  home     - Return to main portfolio  ",
        "│                                       ",
        "╰─────────────────────────────────────────╯"
      ]
    case AboutBox =>
      [
        "╭─ About Me ──────────────────────────────╮",
        "│                                         ",
        "│  Name: Daryl Gatt                       ",
        "│  Role: Cybersecurity Professional       ",
        "│                                         ",
        "│  A passionate cybersecurity enthusiast  ",
        "│  with expertise in penetration testing, ",
        "│  secure development, and offensive      ",
        "│  security research.                     ",
        "│                                         ",
        "╰─────────────────────────────────────────╯"
      ]
    case ProjectsBox =>
      [
        "╭─ Projects ──────────────────────────────╮",
        "│                                         ",
        "│  1. KRYPT0S Ransomware PoC              ",
        "│     Educational ransomware impl.        ",
        "│                                         ",
        "│  2. Morpheus IOC Scanner                ",
        "│     Advanced threat detection           ",
        "│                                         ",
        "│  3. FuzzFindr Web Fuzzing Tool          ",
        "│     Web security testing framework      ",
        "│                                         ",
        "│  4. ELK Stack Tools                     ",
        "│     ELK stack management suite          ",
        "│                                         ",
        "╰─────────────────────────────────────────╯"
      ]
    case SkillsBox =>
      [
        "╭─ Technical Skills ────────────────────────╮",
        "│                                          ",
        "│  Security:  Penetration Testing, OSINT   ",
        "│  Languages: Python, JavaScript, C++      ",
        "│  Tools:     Burp Suite, Metasploit       ",
        "│  Platforms: Linux, Windows, Cloud        ",
        "│                                          ",
        "╰───────────────────────────────────────────╯"
      ]
    case ContactBox =>
      [
        "╭─ Contact Information ──────────────────────╮",
        "│                                           ",
        "│  Email:  phantom.techsec@gmail.com        ",
        "│  GitHub: github.com/phantom0004           ",
        "│                                           ",
        "│  For secure communication, use PGP key    ",
        "│  available on the main portfolio.         ",
        "│                                           ",
        "╰────────────────────────────────────────────╯"
      ]
  }

  /** The text a content command reveals: its box lines joined by newlines, between two newlines. */
  function Framed(lines: seq<string>): (t: string)
    ensures |t| >= 2 && t[0] == '\n' && t[|t| - 1] == '\n'
    ensures t[1..|t| - 1] == Join(lines, '\n')
  {
    "\n" + Join(lines, '\n') + "\n"
  }

  /** The confirmation line that follows the banner after `clear`. */
  const ClearedText: string := "Terminal cleared. Type 'help' for commands."

  const ErrorPrefix: string := "Command not found: "
  const ErrorSuffix: string := ". Type 'help' for available commands."

  /** The error line for an unknown token: the token, framed by a fixed prefix and suffix. */
  function ErrorText(token: string): (t: string)
    ensures |t| == |ErrorPrefix| + |token| + |ErrorSuffix|
    ensures t[..|ErrorPrefix|] == ErrorPrefix
    ensures t[|ErrorPrefix|..|ErrorPrefix| + |token|] == token
    ensures t[|ErrorPrefix| + |token|..] == ErrorSuffix
  {
    ErrorPrefix + token + ErrorSuffix
  }

  /** The canned text each box command reveals. */
  function BoxText(box: Box): string {
    Framed(BoxLines(box))
  }

  /** A text for each box. The terminal carries one of these rather than the literals, so that
      what it does with a box's text does not depend on the text's characters. */
  datatype Texts = Texts(help: string, about: string, projects: string, skills: string, contact: string)
  {
    function Of(box: Box): string {
      match box
      case HelpBox => help
      case AboutBox => about
      case ProjectsBox => projects
      case SkillsBox => skills
      case ContactBox => contact
    }
  }

  /** The texts the source prints. */
  const Canned: Texts :=
    Texts(BoxText(HelpBox), BoxText(AboutBox), BoxText(ProjectsBox), BoxText(SkillsBox), BoxText(ContactBox))

  /** The command table, in the source's order. */
  const Table: seq<Command> := [
    Command("help", "Display available commands", AppendSuccess(HelpBox)),
    Command("about", "Display portfolio owner info", AppendSuccess(AboutBox)),
    Command("projects", "List project details", AppendSuccess(ProjectsBox)),
    Command("skills", "Display technical skills", AppendSuccess(SkillsBox)),
    Command("contact", "Show contact information", AppendSuccess(ContactBox)),
    Command("clear", "Clear terminal screen", Reset(ClearedText)),
    Command("home", "Return to main portfolio", Navigate)
  ]

  ghost predicate UniqueNames(table: seq<Command>) {
    forall i, j | 0 <= i < j < |table| :: table[i].name != table[j].name
  }

  /** No two commands in the table share a name. */
  lemma TableNamesUnique()
    ensures UniqueNames(Table)
  {
    var names := ["help", "about", "projects", "skills", "contact", "clear", "home"];
    assert forall i | 0 <= i < |Table| :: Table[i].name == names[i];
    forall i, j | 0 <= i < j < |Table|
      ensures Table[i].name != Table[j].name
    {
      assert (|names[i]|, names[i][1]) != (|names[j]|, names[j][1]);
    }
  }

  /** `table.find(c => c.name === name)` from position `k` on, as an index. */
  function FindFrom(table: seq<Command>, name: string, k: nat): (r: Option<nat>)
    requires k <= |table|
    ensures r.Some? ==> k <= r.value < |table| && table[r.value].name == name
    ensures r.Some? ==> forall j | k <= j < r.value :: table[j].name != name
    ensures r.None? <==> forall j | k <= j < |table| :: table[j].name != name
    decreases |table| - k
  {
    if k == |table| then None
    else if table[k].name == name then Some(k)
    else FindFrom(table, name, k + 1)
  }

  /** The first command whose name is exactly `name`, if any. */
  function Find(table: seq<Command>, name: string): (r: Option<nat>)
    ensures r.Some? ==> r.value < |table| && table[r.value].name == name
    ensures r.Some? ==> forall j | 0 <= j < r.value :: table[j].name != name
    ensures r.None? <==> forall j | 0 <= j < |table| :: table[j].name != name
  {
    FindFrom(table, name, 0)
  }

  /** With unique names, the lookup finds the one command of that name. */
  lemma FindUnique(table: seq<Command>, i: nat)
    requires UniqueNames(table) && i < |table|
    ensures Find(table, table[i].name) == Some(i)
  {
  }

  /** The name looked up for an input line: its trimmed text up to the first space, lower-cased. */
  function Token(cmd: string): (tok: string)
    ensures |tok| <= |cmd|
    ensures ' ' !in tok
    ensures forall m | 0 <= m < |tok| :: !IsUpper(tok[m])
  {
    FirstTokenIsSpaceFreePrefix(Trim(cmd));
    ToLower(FirstToken(Trim(cmd)))
  }

  /** `processCommand`'s choice: the effect of the one command whose name is the token, or an
      error naming the token when there is none. */
  function Dispatch(cmd: string): (e: Effect)
    ensures e.AppendError? <==> forall i | 0 <= i < |Table| :: Table[i].name != Token(cmd)
    ensures e.AppendError? ==> e.token == Token(cmd)
    ensures forall i | 0 <= i < |Table| && Table[i].name == Token(cmd) :: e == Table[i].effect
  {
    TableNamesUnique();
    match Find(Table, Token(cmd))
    case Some(i) => Table[i].effect
    case None => AppendError(Token(cmd))
  }

  /** A line made of leading whitespace, a word without spaces that neither starts nor ends
      with whitespace, and a rest that is all whitespace or starts with a space, is dispatched on the
      lower-cased word: leading and trailing whitespace and all arguments are ignored, and only
      a space (not a tab or other whitespace) ends the word. */
  lemma TokenOfLine(lead: string, w: string, rest: string)
    requires AllWhitespace(lead)
    requires |w| > 0 && ' ' !in w && !IsWhitespace(w[0]) && !IsWhitespace(w[|w| - 1])
    requires AllWhitespace(rest) || rest[0] == ' '
    ensures Token(lead + w + rest) == ToLower(w)
  {
    TrimPadded(lead, w, rest);
    FirstTokenOfWord(Trim(lead + w + rest), w);
  }

  /** A non-empty word of lower-case ASCII letters is its own token. */
  lemma TokenOfLowerWord(w: string)
    requires |w| > 0 && forall m | 0 <= m < |w| :: 'a' <= w[m] <= 'z'
    ensures Token(w) == w
  {
    var b := TrimBounds(w);
    assert !IsWhitespace(w[0]) && !IsWhitespace(w[|w| - 1]);
    assert b == (0, |w|);
    assert Trim(w) == w;
    FirstTokenIsSpaceFreePrefix(w);
    var tok := FirstToken(w);
    assert forall m | 0 <= m < |w| :: w[m] != ' ';
    assert tok == w;
    ToLowerKeepsLower(w);
  }

  /** A command's name typed in any mix of cases, after any leading whitespace and followed by
      nothing but whitespace or by a space and arguments, runs that command. */
  lemma DispatchAnyCase(i: nat, lead: string, w: string, rest: string)
    requires i < |Table| && AllWhitespace(lead) && AnyCase(w, Table[i].name)
    requires AllWhitespace(rest) || rest[0] == ' '
    ensures Dispatch(lead + w + rest) == Table[i].effect
  {
    var name := Table[i].name;
    assert |name| > 0 && forall m | 0 <= m < |name| :: 'a' <= name[m] <= 'z';
    AnyCaseIsWord(w, name);
    TokenOfLine(lead, w, rest);
    ToLowerAnyCase(w, name);
  }

  /** Every command in the table is reached by its own name. */
  lemma DispatchByName(i: nat)
    requires i < |Table|
    ensures Dispatch(Table[i].name) == Table[i].effect
  {
    TokenOfLowerWord(Table[i].name);
  }

  /** The shape of each command's effect: the five content commands print a box, `clear` resets
      the transcript to the banner and the confirmation line, `home` only navigates, and every
      other token is an error. */
  lemma DispatchKinds(cmd: string)
    ensures Dispatch(cmd).AppendSuccess? <==> Token(cmd) in {"help", "about", "projects", "skills", "contact"}
    ensures Dispatch(cmd).Reset? <==> Token(cmd) == "clear"
    ensures Dispatch(cmd).Reset? ==> Dispatch(cmd) == Reset(ClearedText)
    ensures Dispatch(cmd).Navigate? <==> Token(cmd) == "home"
  {
    var names := ["help", "about", "projects", "skills", "contact", "clear", "home"];
    assert forall i | 0 <= i < |Table| :: Table[i].name == names[i];
    var t := Token(cmd);
    if t in names {
      var i :| 0 <= i < |names| && names[i] == t;
      assert Dispatch(cmd) == Table[i].effect;
    }
  }
}

=== FILE: history.dfy ===
/**
  The input line of the terminal and its command history: `handleKeyDown`'s ArrowUp/ArrowDown
  recall and the bookkeeping `handleSubmit` does. `history` is most-recent-first; `cursor` is the
  source's `historyIndex`, where -1 means the user is editing a live line rather than browsing.
 */
module History {

  datatype Recall = Recall(history: seq<string>, cursor: int, buffer: string)

  /** The cursor range the source keeps: -1 up to the oldest entry. */
  predicate Valid(r: Recall) {
    -1 <= r.cursor < |r.history|
  }

  /** The empty history of a new terminal. */
  const Empty: Recall := Recall([], -1, "")

  /** The submitted raw line becomes the newest entry; the buffer empties and browsing stops. */
  function Record(r: Recall): (r': Recall)
    ensures Valid(r')
    ensures r'.history == [r.buffer] + r.history
    ensures r'.cursor == -1 && r'.buffer == ""
  {
    Recall([r.buffer] + r.history, -1, "")
  }

  /** Typing into the input: only the buffer changes, the cursor stays where it was. */
  function Edit(r: Recall, text: string): (r': Recall)
    ensures Valid(r) ==> Valid(r')
    ensures r'.history == r.history && r'.cursor == r.cursor && r'.buffer == text
  {
    r.(buffer := text)
  }

  /** ArrowUp: one entry further back, unless already at the oldest. */
  function Up(r: Recall): (r': Recall)
    requires Valid(r)
    ensures Valid(r') && r'.history == r.history
    ensures r.cursor == |r.history| - 1 <==> r' == r
    ensures r' != r ==> r'.cursor == r.cursor + 1 && r'.buffer == r.history[r'.cursor]
  {
    if r.cursor < |r.history| - 1 then
      Recall(r.history, r.cursor + 1, r.history[r.cursor + 1])
    else r
  }

  /** ArrowDown: one entry forward; from the newest entry back to an empty live line; nothing
      when not browsing. */
  function Down(r: Recall): (r': Recall)
    requires Valid(r)
    ensures Valid(r') && r'.history == r.history
    ensures r.cursor == -1 ==> r' == r
    ensures r.cursor == 0 ==> r'.cursor == -1 && r'.buffer == ""
    ensures r.cursor > 0 ==> r'.cursor == r.cursor - 1 && r'.buffer == r.history[r'.cursor]
  {
    if r.cursor > 0 then Recall(r.history, r.cursor - 1, r.history[r.cursor - 1])
    else if r.cursor == 0 then Recall(r.history, -1, "")
    else r
  }

  /** `handleKeyDown`: the two arrow keys browse, every other key leaves the line alone. */
  function KeyDown(r: Recall, key: string): (r': Recall)
    requires Valid(r)
    ensures Valid(r') && r'.history == r.history
    ensures key != "ArrowUp" && key != "ArrowDown" ==> r' == r
  {
    if key == "ArrowUp" then Up(r)
    else if key == "ArrowDown" then Down(r)
    else r
  }

  /** The buffer shows the entry under the cursor while browsing, and the empty line after
      browsing forward past the newest entry. */
  ghost predicate Browsing(r: Recall) {
    Valid(r) && (if r.cursor == -1 then r.buffer == "" else r.buffer == r.history[r.cursor])
  }

  function UpN(r: Recall, n: nat): (r': Recall)
    requires Valid(r)
    ensures Valid(r') && r'.history == r.history
    decreases n
  {
    if n == 0 then r else UpN(Up(r), n - 1)
  }

  function DownN(r: Recall, n: nat): (r': Recall)
    requires Valid(r)
    ensures Valid(r') && r'.history == r.history
    decreases n
  {
    if n == 0 then r else DownN(Down(r), n - 1)
  }

  /** Pressing ArrowUp `n` times, from any cursor short of the oldest entry, moves `n` entries
      back and shows the entry reached, stopping at the oldest one; from a live line this
      recalls the `n`-th most recent submission. */
  lemma {:induction false} UpRecalls(r: Recall, n: nat)
    requires Valid(r) && n > 0 && r.cursor < |r.history| - 1
    ensures var k := if r.cursor + n < |r.history| then r.cursor + n else |r.history| - 1;
            UpN(r, n) == Recall(r.history, k, r.history[k])
  {
    UpFrom(Up(r), n - 1);
  }

  /** From an entry shown in the buffer, `n` more ArrowUps move `n` entries back, stopping at
      the oldest one. */
  lemma {:induction false} UpFrom(r: Recall, n: nat)
    requires Browsing(r) && r.cursor >= 0
    ensures var k := if r.cursor + n < |r.history| then r.cursor + n else |r.history| - 1;
            UpN(r, n) == Recall(r.history, k, r.history[k])
    decreases n
  {
    if n > 0 {
      UpFrom(Up(r), n - 1);
    }
  }

  /** From an entry shown in the buffer, `n` ArrowDowns move `n` entries forward, the last
      possible one landing on the empty live line. */
  lemma {:induction false} DownFrom(r: Recall, n: nat)
    requires Browsing(r) && n <= r.cursor + 1
    ensures var k := r.cursor - n;
            DownN(r, n) == Recall(r.history, k, if k == -1 then "" else r.history[k])
    decreases n
  {
    if n > 0 {
      DownFrom(Down(r), n - 1);
    }
  }

  /** ArrowUp `n` times and then ArrowDown `n` times returns to the same cursor when the oldest
      entry is not hit on the way up; the buffer then shows that entry again, or the empty line
      if browsing started from a live line (a live edit is not restored). */
  lemma UpThenDown(r: Recall, n: nat)
    requires Valid(r) && n > 0 && r.cursor + n < |r.history|
    ensures DownN(UpN(r, n), n)
         == Recall(r.history, r.cursor, if r.cursor == -1 then "" else r.history[r.cursor])
  {
    UpRecalls(r, n);
    DownFrom(UpN(r, n), n);
  }
}

=== FILE: jsstring.dfy ===
/**
  The few JavaScript string primitives the terminal relies on:
  `String.prototype.trim`, `split` on a one-character separator, `Array.prototype.join`
  and `toLowerCase`. Strings are sequences of Unicode code points.
 */
module JsString {

  /** The characters `trim` removes: ECMAScript WhiteSpace (TAB, VT, FF, ZWNBSP and every
      Unicode space separator) and LineTerminator (LF, CR, LS, PS). */
  predicate IsWhitespace(c: char) {
    || c == '\t' || c == '\n' || c == '\U{000B}' || c == '\U{000C}' || c == '\r'
    || c == ' ' || c == '\U{00A0}' || c == '\U{1680}'
    || ('\U{2000}' <= c <= '\U{200A}')
    || c == '\U{2028}' || c == '\U{2029}' || c == '\U{202F}' || c == '\U{205F}'
    || c == '\U{3000}' || c == '\U{FEFF}'
  }

  predicate AllWhitespace(s: string) {
    forall k | 0 <= k < |s| :: IsWhitespace(s[k])
  }

  /** The first position at or after `i` that does not hold whitespace (or `|s|`). */
  function TrimStartIndex(s: string, i: nat): (lo: nat)
    requires i <= |s|
    ensures i <= lo <= |s|
    ensures forall m | i <= m < lo :: IsWhitespace(s[m])
    ensures lo < |s| ==> !IsWhitespace(s[lo])
    decreases |s| - i
  {
    if i < |s| && IsWhitespace(s[i]) then TrimStartIndex(s, i + 1) else i
  }

  /** The end of `s[lo..j]` once its whitespace suffix is dropped. */
  function TrimEndIndex(s: string, lo: nat, j: nat): (hi: nat)
    requires lo <= j <= |s|
    ensures lo <= hi <= j
    ensures forall m | hi <= m < j :: IsWhitespace(s[m])
    ensures lo < hi ==> !IsWhitespace(s[hi - 1])
    decreases j
  {
    if lo < j && IsWhitespace(s[j - 1]) then TrimEndIndex(s, lo, j - 1) else j
  }

  /** The span `s.trim()` keeps: everything before `b.0` and from `b.1` on is whitespace, and
      a non-empty span starts and ends with a non-whitespace character. */
  function TrimBounds(s: string): (b: (nat, nat))
    ensures b.0 <= b.1 <= |s|
    ensures forall m | 0 <= m < b.0 :: IsWhitespace(s[m])
    ensures forall m | b.1 <= m < |s| :: IsWhitespace(s[m])
    ensures b.0 < b.1 ==> !IsWhitespace(s[b.0]) && !IsWhitespace(s[b.1 - 1])
  {
    var lo := TrimStartIndex(s, 0);
    (lo, TrimEndIndex(s, lo, |s|))
  }

  /** `s.trim()`: a part of `s` that, unless empty, starts and ends with a character that is not
      whitespace. */
  function Trim(s: string): (r: string)
    ensures |r| <= |s|
    ensures r != [] ==> !IsWhitespace(r[0]) && !IsWhitespace(r[|r| - 1])
  {
    s[TrimBounds(s).0..TrimBounds(s).1]
  }

  /** `s.trim()` is empty exactly when every character of `s` is whitespace. */
  lemma TrimEmptyIffBlank(s: string)
    ensures Trim(s) == [] <==> AllWhitespace(s)
  {
  }

  /** `s.split(sep)` for a one-character separator: the pieces between occurrences of `sep`;
      there is always at least one piece. */
  function Split(s: string, sep: char): (r: seq<string>)
    ensures |r| >= 1
    ensures forall i | 0 <= i < |r| :: sep !in r[i]
  {
    if |s| == 0 then [""]
    else
      var rest := Split(s[1..], sep);
      if s[0] == sep then [""] + rest
      else [[s[0]] + rest[0]] + rest[1..]
  }

  /** `parts.join(sep)`: the first part, then each later part after a separator. */
  function Join(parts: seq<string>, sep: char): (r: string)
    ensures |parts| > 0 ==> parts[0] <= r
    ensures |parts| > 1 ==> |r| > |parts[0]| && r[|parts[0]|] == sep
  {
    if |parts| == 0 then []
    else if |parts| == 1 then parts[0]
    else parts[0] + [sep] + Join(parts[1..], sep)
  }

  /** Joining the pieces of a split with the same separator gives back the original string. */
  lemma {:induction false} SplitJoin(s: string, sep: char)
    ensures Join(Split(s, sep), sep) == s
  {
    if |s| > 0 {
      var rest := Split(s[1..], sep);
      SplitJoin(s[1..], sep);
      if s[0] == sep {
        assert ([""] + rest)[1..] == rest;
      } else {
        var r := [[s[0]] + rest[0]] + rest[1..];
        assert r[1..] == rest[1..];
        if |rest| > 1 {
          assert rest == [rest[0]] + rest[1..];
        }
      }
    }
  }

  /** Where part `j` starts in `Join(parts, sep)`: after every earlier part and its separator. */
  function Offset(parts: seq<string>, j: nat): nat
    requires j < |parts|
  {
    if j == 0 then 0 else |parts[0]| + 1 + Offset(parts[1..], j - 1)
  }

  /** Joining keeps every part intact, at its offset. */
  lemma {:induction false} JoinPlacesParts(parts: seq<string>, sep: char, j: nat)
    requires j < |parts|
    ensures Offset(parts, j) + |parts[j]| <= |Join(parts, sep)|
    ensures Join(parts, sep)[Offset(parts, j)..Offset(parts, j) + |parts[j]|] == parts[j]
  {
    if |parts| > 1 {
      var rest := Join(parts[1..], sep);
      assert Join(parts, sep) == parts[0] + [sep] + rest;
      if j > 0 {
        JoinPlacesParts(parts[1..], sep, j - 1);
        var o := Offset(parts[1..], j - 1);
        assert Join(parts, sep)[|parts[0]| + 1 + o..|parts[0]| + 1 + o + |parts[j]|] == rest[o..o + |parts[j]|];
      }
    }
  }

  /** `s.split(' ')[0]`: the text before the first space. */
  function FirstToken(s: string): (tok: string)
    ensures ' ' !in tok
  {
    Split(s, ' ')[0]
  }

  /** The first token is the longest space-free prefix of the string. */
  lemma {:induction false} FirstTokenIsSpaceFreePrefix(s: string)
    ensures |FirstToken(s)| <= |s| && FirstToken(s) == s[..|FirstToken(s)|]
    ensures forall m | 0 <= m < |FirstToken(s)| :: s[m] != ' '
    ensures |FirstToken(s)| < |s| ==> s[|FirstToken(s)|] == ' '
  {
    if |s| > 0 && s[0] != ' ' {
      FirstTokenIsSpaceFreePrefix(s[1..]);
    }
  }

  /** When `s` holds only whitespace before `lo` and non-whitespace at `lo` and at `hi - 1`, the
      trimmed text starts at `lo` and reaches at least to `hi`. */
  lemma TrimBoundsAround(s: string, lo: nat, hi: nat)
    requires lo < hi <= |s|
    requires forall m | 0 <= m < lo :: IsWhitespace(s[m])
    requires !IsWhitespace(s[lo]) && !IsWhitespace(s[hi - 1])
    ensures TrimBounds(s).0 == lo && hi <= TrimBounds(s).1
  {
  }

  /** Trimming a word padded by whitespace in front keeps the word, followed by a prefix of
      the rest of the string. */
  lemma TrimPadded(lead: string, w: string, rest: string)
    requires AllWhitespace(lead)
    requires |w| > 0 && !IsWhitespace(w[0]) && !IsWhitespace(w[|w| - 1])
    ensures var t := Trim(lead + w + rest);
            && |w| <= |t| && t[..|w|] == w
            && (|t| > |w| ==> t[|w|] == rest[0])
            && |t| - |w| <= |rest| && t == w + rest[..|t| - |w|]
  {
    var s := lead + w + rest;
    var lo, hi := |lead|, |lead| + |w|;
    assert forall m | 0 <= m < lo :: s[m] == lead[m];
    assert s[lo] == w[0] && s[hi - 1] == w[|w| - 1];
    TrimBoundsAround(s, lo, hi);
    var b1 := TrimBounds(s).1;
    var t := Trim(s);
    assert t == s[lo..b1];
    assert t[..|w|] == s[lo..hi] == w;
    if |t| > |w| {
      assert t[|w|] == s[hi] == rest[0];
    }
    assert t[|w|..] == s[hi..b1] == rest[..b1 - hi];
  }

  /** A space-free word followed by a space or by nothing is the first token. */
  lemma FirstTokenOfWord(t: string, w: string)
    requires |w| <= |t| && t[..|w|] == w && ' ' !in w
    requires |t| > |w| ==> t[|w|] == ' '
    ensures FirstToken(t) == w
  {
    FirstTokenIsSpaceFreePrefix(t);
    var tok := FirstToken(t);
    assert forall m | 0 <= m < |w| :: t[m] == w[m];
    assert |tok| == |w|;
  }

  /** One character of `toLowerCase`: ASCII and Latin-1 capitals, and the Kelvin sign, whose lower
      case is the ASCII letter `k`; every other character maps to itself. */
  function LowerChar(c: char): (r: char)
    ensures IsWhitespace(r) <==> IsWhitespace(c)
    ensures r == c || IsUpper(c)
    ensures !IsUpper(r)
    ensures IsUpperLatin(c) ==> r as int == c as int + 32
    ensures c == '\U{212A}' ==> r == 'k'
  {
    if IsUpperLatin(c) then (c as int + 32) as char
    else if c == '\U{212A}' then 'k'
    else c
  }

  predicate IsUpperLatin(c: char) {
    ('A' <= c <= 'Z') || ('\U{00C0}' <= c <= '\U{00DE}' && c != '\U{00D7}')
  }

  predicate IsUpper(c: char) {
    IsUpperLatin(c) || c == '\U{212A}'
  }

  /** `s.toLowerCase()` for the characters `LowerChar` covers. */
  function ToLower(s: string): (r: string)
    ensures |r| == |s|
    ensures forall i | 0 <= i < |s| :: r[i] == LowerChar(s[i])
    ensures forall i | 0 <= i < |r| :: !IsUpper(r[i])
    ensures forall i | 0 <= i < |s| && !IsUpper(s[i]) :: r[i] == s[i]
  {
    seq(|s|, i requires 0 <= i < |s| => LowerChar(s[i]))
  }

  /** A string without capitals is its own lower case. */
  lemma ToLowerKeepsLower(s: string)
    requires forall m | 0 <= m < |s| :: !IsUpper(s[m])
    ensures ToLower(s) == s
  {
    assert forall m | 0 <= m < |s| :: ToLower(s)[m] == s[m];
  }

  /** Lower-casing twice is lower-casing once. */
  lemma ToLowerIdempotent(s: string)
    ensures ToLower(ToLower(s)) == ToLower(s)
  {
  }

  /** `w` spells `name` with any of `name`'s ASCII letters in upper case. */
  ghost predicate AnyCase(w: string, name: string) {
    && |w| == |name|
    && forall m | 0 <= m < |w| ::
         w[m] == name[m] || ('a' <= name[m] <= 'z' && w[m] as int == name[m] as int - 32)
  }

  /** A non-empty lower-case ASCII word typed in any mix of cases is still a word: ASCII letters
      only, so no space and no whitespace at either end. */
  lemma AnyCaseIsWord(w: string, name: string)
    requires |name| > 0 && forall m | 0 <= m < |name| :: 'a' <= name[m] <= 'z'
    requires AnyCase(w, name)
    ensures |w| > 0 && ' ' !in w && !IsWhitespace(w[0]) && !IsWhitespace(w[|w| - 1])
  {
    assert forall m | 0 <= m < |w| :: ('a' <= w[m] <= 'z') || ('A' <= w[m] <= 'Z');
  }

  /** A lower-case ASCII word typed in any mix of cases lower-cases back to the word. */
  lemma ToLowerAnyCase(w: string, name: string)
    requires forall m | 0 <= m < |name| :: 'a' <= name[m] <= 'z'
    requires AnyCase(w, name)
    ensures ToLower(w) == name
  {
    forall m | 0 <= m < |w|
      ensures ToLower(w)[m] == name[m]
    {
      if w[m] != name[m] {
        assert IsUpperLatin(w[m]);
      }
    }
  }
}

=== FILE: linebyline.dfy ===
/**
  The line-by-line reveal of a list of lines (the `LineByLine` component): one `TypeWriter` at a
  time reveals `lines[index]`; when it completes, the line moves to `completed` and the next line
  starts, and when the last line completes the component's own completion callback fires.

  React runs a child's mount effect before its parent's, so the first line's first step (its
  `TypeWriter` mounting) happens while `mountedRef` is still false. A completion reported by that
  step, which happens exactly when the first line is empty, is dropped and the component stalls.
 */
module LineByLine {
  import TW = TypeWriter

  /** `index` is the source's `currentLineIndex`, `completed` its `completedLines`, `lastDone`
      its `isLastLineComplete`, `tw` the reveal of the current line and `ready` its `mountedRef`. */
  datatype State = State(lines: seq<string>, index: nat, completed: seq<string>, lastDone: bool, tw: TW.State,
                         ready: bool)

  datatype Tick = Tick(next: State, fired: bool)

  /** A `TypeWriter` is on screen and still taking steps. */
  predicate Active(s: State) {
    s.index < |s.lines| && !s.lastDone && !s.tw.complete
  }

  /** The next step is the mount-time step of an empty first line, whose completion is dropped. */
  predicate DropsFirst(s: State) {
    !s.ready && s.index < |s.lines| && s.lines[s.index] == []
  }

  ghost predicate Valid(s: State) {
    && (if |s.lines| == 0 then s.index == 0 else s.index < |s.lines|)
    && s.completed == s.lines[..s.index]
    && (s.index < |s.lines| ==> TW.Valid(s.tw) && s.tw.text == s.lines[s.index])
    && (s.lastDone ==> s.index == |s.lines| - 1)
    && (!s.ready ==> s.index == 0 && !s.lastDone && s.tw.shown == 0 && !s.tw.complete)
  }

  /** The freshly mounted component, before its first step. */
  function Start(lines: seq<string>): (s: State)
    ensures Valid(s) && s.lines == lines && s.completed == []
    ensures Active(s) <==> |lines| > 0
    ensures DropsFirst(s) <==> |lines| > 0 && lines[0] == []
  {
    State(lines, 0, [], false, TW.Start(if |lines| > 0 then lines[0] else ""), false)
  }

  /** One step of the current line's reveal, and the source's `handleLineComplete` when that
      reveal completes. */
  function Step(s: State): (t: Tick)
    requires Valid(s)
    ensures Valid(t.next) && t.next.lines == s.lines
    ensures s.completed <= t.next.completed
    ensures t.fired ==> Active(s) && !DropsFirst(s) && s.index == |s.lines| - 1 && t.next.lastDone
    ensures DropsFirst(s) ==> !t.fired && !Active(t.next)
    ensures Active(s) && !DropsFirst(s) && !t.fired ==> Active(t.next) && !DropsFirst(t.next)
    ensures !Active(s) ==> t == Tick(s, false)
  {
    if !Active(s) then Tick(s, false)
    else
      var inner := TW.Step(s.tw);
      if !inner.fired || !s.ready then Tick(s.(tw := inner.next, ready := true), false)
      else if s.index == |s.lines| - 1 then Tick(s.(tw := inner.next, lastDone := true), true)
      else
        Tick(s.(index := s.index + 1,
                completed := s.completed + [s.lines[s.index]],
                tw := TW.Start(s.lines[s.index + 1])), false)
  }

  /** Steps that lines `i..` take to reveal, one per character plus the completing step each. */
  function StepsFrom(lines: seq<string>, i: nat): nat
    decreases |lines| - i
  {
    if i >= |lines| then 0 else |lines[i]| + 1 + StepsFrom(lines, i + 1)
  }

  /** Steps still to come before the component completes, unless its first step is dropped. */
  function Remaining(s: State): nat
    requires Valid(s)
  {
    if !Active(s) then 0 else TW.Remaining(s.tw) + StepsFrom(s.lines, s.index + 1)
  }

  /** The lines on screen: the completed ones, then the current one (whole once the last line is
      done, otherwise as far as its reveal has got). */
  function Displayed(s: State): (d: seq<string>)
    requires Valid(s)
    ensures |d| == if |s.lines| == 0 then 0 else s.index + 1
    ensures d[..s.index] == s.lines[..s.index]
    ensures s.index < |s.lines| ==> d[s.index] <= s.lines[s.index]
    ensures s.lastDone ==> d[s.index] == s.lines[s.index]
  {
    if s.index >= |s.lines| then s.completed
    else if s.lastDone then s.completed + [s.lines[s.index]]
    else s.completed + [TW.Displayed(s.tw)]
  }

  function Fired(s: State, n: nat): nat
    requires Valid(s)
    decreases n
  {
    if n == 0 then 0
    else (if Step(s).fired then 1 else 0) + Fired(Step(s).next, n - 1)
  }

  /** Each step of an active component whose completion is not dropped uses up exactly one
      remaining step. */
  lemma StepConsumesOne(s: State)
    requires Valid(s) && Active(s) && !DropsFirst(s)
    ensures Remaining(Step(s).next) == Remaining(s) - 1
    ensures Step(s).fired <==> Remaining(s) == 1
  {
    var inner := TW.Step(s.tw);
    if inner.fired && s.index < |s.lines| - 1 {
      assert StepsFrom(s.lines, s.index + 1) == |s.lines[s.index + 1]| + 1 + StepsFrom(s.lines, s.index + 2);
    }
  }

  /** The completion callback fires exactly once, on step number `Remaining(s)`; together with
      `StartRemaining` this is one step per character plus one per line. */
  lemma {:induction false} FiresExactlyOnce(s: State, n: nat)
    requires Valid(s) && Active(s) && !DropsFirst(s)
    ensures Fired(s, n) == if n >= Remaining(s) then 1 else 0
    decreases n
  {
    if n > 0 {
      StepConsumesOne(s);
      var t := Step(s);
      if t.fired {
        NeverFiresInactive(t.next, n - 1);
      } else {
        FiresExactlyOnce(t.next, n - 1);
      }
    }
  }

  /** A component with no reveal running stays silent; in particular an empty list of lines
      never completes. */
  lemma {:induction false} NeverFiresInactive(s: State, n: nat)
    requires Valid(s) && !Active(s)
    ensures Fired(s, n) == 0
    decreases n
  {
    if n > 0 {
      NeverFiresInactive(Step(s).next, n - 1);
    }
  }

  /** A fresh component needs one step per character and one per line, and its first step is
      dropped exactly when the first line is empty. */
  lemma StartRemaining(lines: seq<string>)
    requires |lines| > 0
    ensures Remaining(Start(lines)) == StepsFrom(lines, 0)
    ensures DropsFirst(Start(lines)) <==> lines[0] == []
  {
    var s := Start(lines);
    assert Active(s) && TW.Remaining(s.tw) == |lines[0]| + 1;
  }

  /** A fresh component fires once, after one step per character and one per line, when its
      first line is not empty; with an empty first line it never fires. */
  lemma StartFires(lines: seq<string>, n: nat)
    requires |lines| > 0
    ensures Fired(Start(lines), n) == if lines[0] != [] && n >= StepsFrom(lines, 0) then 1 else 0
  {
    var s := Start(lines);
    StartRemaining(lines);
    if lines[0] == [] {
      if n > 0 {
        NeverFiresInactive(Step(s).next, n - 1);
      }
    } else {
      FiresExactlyOnce(s, n);
    }
  }

  /** When the last line is done, every line is on screen in full. */
  lemma DoneShowsAll(s: State)
    requires Valid(s) && s.lastDone
    ensures Displayed(s) == s.lines
  {
    assert s.lines == s.lines[..s.index] + [s.lines[s.index]];
  }
}

=== FILE: scenarios.dfy ===
/**
  Concrete runs of the terminal: the command scenarios, and the edge cases that follow
  from how the input line is trimmed, split and lower-cased.
 */
module Scenarios {
  import opened JsString
  import opened Commands
  import opened Terminal
  import TW = TypeWriter
  import LBL = LineByLine
  import H = History

  predicate OccursAt(text: string, pat: string, i: nat) {
    i + |pat| <= |text| && text[i..i + |pat|] == pat
  }

  ghost predicate Contains(text: string, pat: string) {
    exists i: nat :: OccursAt(text, pat, i)
  }

  /** Text found inside one line of a box is found in the box's framed text. */
  lemma FramedContains(lines: seq<string>, j: nat, k: nat, pat: string)
    requires j < |lines| && OccursAt(lines[j], pat, k)
    ensures Contains(Framed(lines), pat)
  {
    var joined := Join(lines, '\n');
    var f := Framed(lines);
    JoinPlacesParts(lines, '\n', j);
    var o := Offset(lines, j);
    var line := lines[j];
    assert joined[o..o + |line|] == line;
    assert f == "\n" + joined + "\n";
    forall m | 0 <= m < |pat|
      ensures f[1 + o + k + m] == pat[m]
    {
      assert f[1 + o + k + m] == joined[o + k + m] == joined[o..o + |line|][k + m];
      assert line[k..k + |pat|][m] == pat[m];
    }
    assert f[1 + o + k..1 + o + k + |pat|] == pat;
    assert OccursAt(f, pat, 1 + o + k);
  }

  /** A state waiting at the prompt with `line` typed in. */
  ghost predicate Ready(s: State, line: string) {
    Valid(s) && !s.typing && s.line.buffer == line
  }

  /** The terminal opens typing its boot sequence; after one step per character and one per
      line of it, the prompt appears below the banner and the boot lines. */
  lemma BootScenario(texts: Texts)
    ensures var s := Steps(Init(texts), LBL.StepsFrom(BootLines, 0));
            && !s.typing && s.anim == Idle
            && s.transcript == [BannerEntry, Entry(Output, Sequenced(BootLines))]
  {
    var s0 := Init(texts);
    LBL.StartRemaining(BootLines);
    assert RevealRemaining(s0) == LBL.StepsFrom(BootLines, 0);
    ReplyCompletes(s0);
  }

  /** The help box lists the `about` command. */
  lemma HelpMentionsAbout()
    ensures Contains(BoxText(HelpBox), "about")
  {
    var lead, tail := "│  ", "    - Display portfolio info    ";
    var line := BoxLines(HelpBox)[3];
    assert line == lead + "about" + tail;
    assert line[|lead|..|lead| + 5] == "about";
    FramedContains(BoxLines(HelpBox), 3, |lead|, "about");
  }

  /** `help`: the echo line and then one success line with the help box's text; once that has
      been revealed the prompt is back. */
  lemma HelpScenario(s: State)
    requires Ready(s, "help")
    ensures var r := Steps(Next(s, Submit), |Prompt| + 5);
            && r.transcript == s.transcript + [Entry(Input, Typed(Prompt + "help")), Entry(Success, Typed(s.texts.Of(HelpBox)))]
            && r.typing
            && Steps(r, |s.texts.Of(HelpBox)| + 1) == r.(typing := false, anim := Idle)
  {
    assert !IsWhitespace(s.line.buffer[0]);
    SubmitRecords(s);
    SubmitThenDispatch(s);
    DispatchByName(0);
    assert Table[0] == Command("help", "Display available commands", AppendSuccess(HelpBox));
    var r0 := Next(s, Submit);
    var r := Steps(r0, |Prompt| + 5);
    assert r == ProcessCommand(r0, "help");
    assert r.transcript == r0.transcript + [Entry(Success, Typed(s.texts.Of(HelpBox)))];
    var text := s.texts.Of(HelpBox);
    assert r.anim == Reply(TW.Start(text));
    assert RevealRemaining(r) == |text| + 1;
    ReplyCompletes(r);
    var echo := Entry(Input, Typed(Prompt + "help"));
    assert r0.transcript == s.transcript + [echo];
    assert s.transcript + [echo] + [Entry(Success, Typed(text))] == s.transcript + [echo, Entry(Success, Typed(text))];
  }

  /** `foo` names no command. */
  lemma FooIsUnknown()
    ensures Dispatch("foo") == AppendError("foo")
  {
    TokenOfLowerWord("foo");
    DispatchKinds("foo");
  }

  /** The error line for `foo` starts `Command not found: foo`. */
  lemma FooMessage()
    ensures ErrorText("foo")[..22] == "Command not found: foo"
  {
    var t := ErrorText("foo");
    assert t[..22] == t[..19] + t[19..22];
  }

  /** An unknown command: one error line naming it. */
  lemma UnknownScenario(s: State)
    requires Ready(s, "foo")
    ensures var r := Steps(Next(s, Submit), |Prompt| + 4);
            && r.transcript == s.transcript + [Entry(Input, Typed(Prompt + "foo")), Entry(Error, Typed(ErrorText("foo")))]
            && ErrorText("foo")[..22] == "Command not found: foo"
  {
    UnknownSteps(s);
    FooMessage();
  }

  lemma UnknownSteps(s: State)
    requires Ready(s, "foo")
    ensures Steps(Next(s, Submit), |Prompt| + 4).transcript
         == s.transcript + [Entry(Input, Typed(Prompt + "foo")), Entry(Error, Typed(ErrorText("foo")))]
  {
    assert !IsWhitespace(s.line.buffer[0]);
    SubmitThenDispatch(s);
    FooIsUnknown();
  }

  /** `clear`: the transcript becomes exactly the banner and one confirmation line. */
  lemma ClearScenario(s: State)
    requires Ready(s, "clear")
    ensures var r := Steps(Next(s, Submit), |Prompt| + 6);
            && r.transcript == [BannerEntry, Entry(Output, Typed(ClearedText))]
            && r.line.history == ["clear"] + s.line.history
  {
    assert !IsWhitespace("clear"[0]);
    SubmitThenDispatch(s);
    DispatchByName(5);
  }

  /** `home`: the echo line and nothing more; the terminal navigates and stays `typing`. */
  lemma HomeScenario(s: State)
    requires Ready(s, "home")
    ensures var r := Steps(Next(s, Submit), |Prompt| + 5);
            && r.transcript == s.transcript + [Entry(Input, Typed(Prompt + "home"))]
            && r.navigated && r.typing
  {
    assert !IsWhitespace("home"[0]);
    SubmitThenDispatch(s);
    DispatchByName(6);
  }

  /** An empty or all-blank line: nothing happens. */
  lemma BlankScenario(s: State)
    requires Ready(s, "") || Ready(s, " \t ")
    ensures Next(s, Submit) == s
  {
    BlankSubmitIsNoOp(s);
  }

  /** Case, surrounding whitespace and arguments do not matter: `  HELP me ` runs `help`. */
  lemma CaseAndArgumentsIgnored()
    ensures Dispatch("  HELP me ") == AppendSuccess(HelpBox)
  {
    var t := ToLower("HELP");
    assert t[0] == 'h' && t[1] == 'e' && t[2] == 'l' && t[3] == 'p';
    assert forall k | 0 <= k < 4 :: t[k] == "help"[k];
    assert t == "help";
    assert "  HELP me " == "  " + "HELP" + " me ";
    TokenOfLine("  ", "HELP", " me ");
    assert Token("  HELP me ") == "help";
    assert Table[0].name == "help";
  }

  /** Trailing whitespace of any kind is trimmed away: `help` followed by a tab runs `help`. */
  lemma TrailingTabIgnored()
    ensures Dispatch("help\t") == AppendSuccess(HelpBox)
  {
    assert Table[0].name == "help" && Table[0].effect == AppendSuccess(HelpBox);
    assert "help\t" == "" + "help" + "\t";
    DispatchAnyCase(0, "", "help", "\t");
  }

  /** The Kelvin sign lower-cases to `k`, so `S\U{212A}ILLS` runs `skills`. */
  lemma KelvinSignRunsSkills()
    ensures Dispatch("S\U{212A}ILLS") == AppendSuccess(SkillsBox)
  {
    KelvinSkillsToken("S\U{212A}ILLS");
    assert Table[3].name == "skills";
  }

  lemma KelvinSkillsToken(w: string)
    requires w == "S\U{212A}ILLS"
    ensures Token(w) == "skills"
  {
    KelvinSkillsLower(w);
    assert w == "" + w + "";
    TokenOfLine("", w, "");
  }

  lemma KelvinSkillsLower(w: string)
    requires w == "S\U{212A}ILLS"
    ensures ToLower(w) == "skills"
  {
    var t := ToLower(w);
    assert t[0] == 's' && t[1] == 'k' && t[2] == 'i' && t[3] == 'l' && t[4] == 'l' && t[5] == 's';
    assert forall k | 0 <= k < 6 :: t[k] == "skills"[k];
  }

  /** Only a space ends the command name: after a tab the whole line is the unknown token. */
  lemma TabIsNotASeparator()
    ensures Dispatch("help\tme") == AppendError("help\tme")
  {
    ToLowerKeepsLower("help\tme");
    assert "help\tme" == "" + "help\tme" + "";
    TokenOfLine("", "help\tme", "");
    assert Token("help\tme") == "help\tme";
    DispatchKinds("help\tme");
  }

  /** After submitting `a` and then `b`, ArrowUp recalls `b`, then `a`, and stays at `a`;
      ArrowDown walks back to `b` and then to the empty live line, where it stops. */
  lemma RecallScenario()
    ensures var r0 := H.Record(H.Record(H.Empty.(buffer := "a")).(buffer := "b"));
            var u1 := H.KeyDown(r0, "ArrowUp");
            var u2 := H.KeyDown(u1, "ArrowUp");
            var u3 := H.KeyDown(u2, "ArrowUp");
            var d1 := H.KeyDown(u3, "ArrowDown");
            var d2 := H.KeyDown(d1, "ArrowDown");
            var d3 := H.KeyDown(d2, "ArrowDown");
            && r0.history == ["b", "a"]
            && u1.buffer == "b" && u2.buffer == "a" && u3 == u2
            && d1.buffer == "b" && d2.buffer == "" && d2.cursor == -1 && d3 == d2
  {
  }
}

=== FILE: terminal.dfy ===
/**
  The terminal page as a state machine over immutable states: the transcript, the input line with
  its history, the `isTyping` flag and the one reveal animation in progress. Its events are the
  user's edits, key presses and submissions, and abstract `Step`s that stand for the reveal
  timers firing. The input form is only on screen while nothing is typing, so edits, keys and
  submissions that arrive while `typing` holds change nothing.
 */
module Terminal {
  import opened JsString
  import opened Commands
  import TW = TypeWriter
  import LBL = LineByLine
  import H = History

  /** The styling class of a transcript line. */
  datatype Kind = Input | Output | Ascii | Error | Success

  /** What a transcript line renders: the title banner's fixed ASCII art (`TitleBanner`), text
      revealed by a typewriter, or lines revealed one after another. */
  datatype Content = TitleArt | Typed(text: string) | Sequenced(lines: seq<string>)

  datatype Entry = Entry(kind: Kind, content: Content)

  /** The animation in progress and what its completion triggers. */
  datatype Reveal =
    | Idle
    | Boot(lines: LBL.State)               // the boot sequence; completion clears `typing`
    | Echo(tw: TW.State, command: string)  // the echoed input; completion runs the command
    | Reply(tw: TW.State)                  // a command's output; completion clears `typing`

  /** `anim` is the reveal in progress; `texts` holds the text each content command prints and
      never changes. */
  datatype State =
    State(transcript: seq<Entry>, line: H.Recall, typing: bool, anim: Reveal, navigated: bool, texts: Texts)

  datatype Event = Edit(text: string) | KeyDown(key: string) | Submit | Step

  /** The prompt that prefixes every echoed input line. */
  const Prompt: string := "phantom@portfolio:~$ "

  /** The title banner at the top of the transcript (an ASCII-art block). */
  const TitleBanner: string := "\n ____              _        _____     _   _   \n|    \\ ___ ___ _ _| |      |   __|___| |_| |_                                 \n|  |  | .'|  _| | | |      |  |  | .'|  _|  _|\n|____/|__,|_| |_  |_|      |_____|__,|_| |_|  \n              |___|                           \n"

  /** The first line of every transcript. */
  const BannerEntry: Entry := Entry(Ascii, TitleArt)

  /** The transcript right after `clear`. */
  const ClearedTranscript: seq<Entry> := [BannerEntry, Entry(Output, Typed(ClearedText))]

  function Last(t: seq<Entry>): Entry
    requires |t| > 0
  {
    t[|t| - 1]
  }

  /** The invariant of every reachable state. */
  ghost predicate Valid(s: State) {
    && H.Valid(s.line)
    && |s.transcript| > 0 && s.transcript[0] == BannerEntry
    && (s.typing <==> !s.anim.Idle? || s.navigated)
    && (s.navigated ==> s.anim.Idle?)
    && match s.anim
       case Idle => true
       case Boot(l) =>
         LBL.Valid(l) && LBL.Active(l) && !LBL.DropsFirst(l) && Last(s.transcript) == Entry(Output, Sequenced(l.lines))
       case Echo(tw, cmd) =>
         && TW.Valid(tw) && !tw.complete && tw.text == Prompt + cmd
         && Last(s.transcript) == Entry(Input, Typed(tw.text))
         && |s.line.history| > 0 && s.line.history[0] == cmd && Trim(cmd) != []
       case Reply(tw) =>
         && TW.Valid(tw) && !tw.complete
         && Last(s.transcript).content == Typed(tw.text)
         && Last(s.transcript).kind in {Output, Error, Success}
  }

  /** The terminal once mounted: the banner, then the boot sequence revealing line by line with
      `typing` set, and an empty input line. The page itself mounts with `Init(Canned)`. */
  function Init(texts: Texts): (s: State)
    ensures Valid(s) && s.typing && !s.navigated
    ensures s.transcript == [BannerEntry, Entry(Output, Sequenced(BootLines))]
    ensures s.line == H.Empty && s.texts == texts
  {
    State([BannerEntry, Entry(Output, Sequenced(BootLines))], H.Empty, true, Boot(LBL.Start(BootLines)), false, texts)
  }

  /** `handleSubmit`: a blank line (nothing but whitespace) changes nothing; otherwise the echo
      of the raw line is appended and starts revealing, the raw line becomes the newest history
      entry, the buffer empties and browsing stops. */
  function HandleSubmit(s: State): (r: State)
    requires Valid(s) && !s.typing
    ensures Valid(r)
    ensures Trim(s.line.buffer) == [] ==> r == s
    ensures Trim(s.line.buffer) != [] ==>
      && r.transcript == s.transcript + [Entry(Input, Typed(Prompt + s.line.buffer))]
      && r.line.history == [s.line.buffer] + s.line.history
      && r.line.buffer == "" && r.line.cursor == -1
      && r.typing && r.anim == Echo(TW.Start(Prompt + s.line.buffer), s.line.buffer)
      && r.navigated == s.navigated && r.texts == s.texts
  {
    var input := s.line.buffer;
    if Trim(input) == [] then s
    else
      var echo := Prompt + input;
      s.(transcript := s.transcript + [Entry(Input, Typed(echo))], line := H.Record(s.line), typing := true,
         anim := Echo(TW.Start(echo), input))
  }

  /** Appends one line of the given kind and starts revealing its text. */
  function AppendTyped(s: State, kind: Kind, text: string): State {
    s.(transcript := s.transcript + [Entry(kind, Typed(text))], anim := Reply(TW.Start(text)))
  }

  /** `processCommand`, run when the echo of `cmd` completes: `typing` is set, and the command's
      effect is applied. A content command or an unknown token appends exactly one line and
      leaves every earlier line as it was; `clear` replaces the transcript by the banner and the
      confirmation line; `home` appends nothing, navigates, and leaves `typing` set. */
  function ProcessCommand(s: State, cmd: string): (r: State)
    ensures r.typing && r.line == s.line && r.texts == s.texts
    ensures match Dispatch(cmd)
      case AppendSuccess(box) =>
        r.transcript == s.transcript + [Entry(Success, Typed(s.texts.Of(box)))] && r.navigated == s.navigated
      case Reset(_) => r.transcript == ClearedTranscript && r.navigated == s.navigated
      case Navigate => r.transcript == s.transcript && r.navigated
      case AppendError(token) =>
        r.transcript == s.transcript + [Entry(Error, Typed(ErrorText(token)))] && r.navigated == s.navigated
  {
    var s1 := s.(typing := true, anim := Idle);
    match Dispatch(cmd)
    case AppendSuccess(box) => AppendTyped(s1, Success, s.texts.Of(box))
    case Reset(text) =>
      s1.(transcript := [BannerEntry, Entry(Output, Typed(text))], anim := Reply(TW.Start(text)))
    case Navigate => s1.(navigated := true)
    case AppendError(token) => AppendTyped(s1, Error, ErrorText(token))
  }

  /** One timer firing for the reveal in progress, and what its completion triggers. */
  function StepReveal(s: State): (r: State)
    requires Valid(s)
    ensures Valid(r)
    ensures r.line == s.line && r.texts == s.texts
    ensures s.anim.Idle? ==> r == s
  {
    match s.anim
    case Idle => s
    case Boot(l) =>
      var t := LBL.Step(l);
      if t.fired then s.(typing := false, anim := Idle) else s.(anim := Boot(t.next))
    case Echo(tw, cmd) =>
      var t := TW.Step(tw);
      if t.fired then
        DispatchKinds(cmd);
        ProcessCommand(s, cmd)
      else s.(anim := Echo(t.next, cmd))
    case Reply(tw) =>
      var t := TW.Step(tw);
      if t.fired then s.(typing := false, anim := Idle) else s.(anim := Reply(t.next))
  }

  /** The terminal's response to one event. */
  function Next(s: State, e: Event): (r: State)
    requires Valid(s)
    ensures Valid(r) && r.texts == s.texts
  {
    match e
    case Edit(text) => if s.typing then s else s.(line := H.Edit(s.line, text))
    case KeyDown(key) => if s.typing then s else s.(line := H.KeyDown(s.line, key))
    case Submit => if s.typing then s else HandleSubmit(s)
    case Step => StepReveal(s)
  }

  function Run(s: State, events: seq<Event>): (r: State)
    requires Valid(s)
    ensures Valid(r) && r.texts == s.texts
    decreases |events|
  {
    if |events| == 0 then s else Run(Next(s, events[0]), events[1..])
  }

  /** `n` timer steps in a row. */
  function Steps(s: State, n: nat): (r: State)
    requires Valid(s)
    ensures Valid(r) && r.texts == s.texts
    decreases n
  {
    if n == 0 then s else Steps(Next(s, Step), n - 1)
  }

  /** `n + 1` steps are `n` steps followed by one more. */
  lemma {:induction false} StepsLast(s: State, n: nat)
    requires Valid(s)
    ensures Steps(s, n + 1) == Next(Steps(s, n), Step)
    decreases n
  {
    if n > 0 {
      StepsLast(Next(s, Step), n - 1);
    }
  }

  /** Steps the reveal in progress still takes, its completing step included. */
  function RevealRemaining(s: State): nat
    requires Valid(s)
  {
    match s.anim
    case Idle => 0
    case Boot(l) => LBL.Remaining(l)
    case Echo(tw, _) => TW.Remaining(tw)
    case Reply(tw) => TW.Remaining(tw)
  }

  /** Submitting a line of nothing but whitespace changes nothing at all: no transcript line,
      no history entry, the same cursor, buffer and `typing` flag. */
  lemma BlankSubmitIsNoOp(s: State)
    requires Valid(s) && AllWhitespace(s.line.buffer)
    ensures Next(s, Submit) == s
  {
    TrimEmptyIffBlank(s.line.buffer);
  }

  /** A submitted line that is not blank is recorded: one echo line is appended, the raw
      (untrimmed) line heads the history, and the input line is reset. */
  lemma SubmitRecords(s: State)
    requires Valid(s) && !s.typing && !AllWhitespace(s.line.buffer)
    ensures var r := Next(s, Submit);
            && r.transcript == s.transcript + [Entry(Input, Typed(Prompt + s.line.buffer))]
            && r.line == H.Recall([s.line.buffer] + s.line.history, -1, "")
            && r.typing
  {
    TrimEmptyIffBlank(s.line.buffer);
  }

  /** The transcript only ever grows by one line at a time, except that `clear` replaces it by
      exactly the banner and the confirmation line. */
  lemma TranscriptChange(s: State, e: Event)
    requires Valid(s)
    ensures var t, t' := s.transcript, Next(s, e).transcript;
            || t' == t
            || (|t'| == |t| + 1 && t'[..|t|] == t)
            || (e.Step? && s.anim.Echo? && Token(s.anim.command) == "clear" && t' == ClearedTranscript)
  {
    var t' := Next(s, e).transcript;
    if e.Step? && s.anim.Echo? && TW.Step(s.anim.tw).fired {
      DispatchKinds(s.anim.command);
      match Dispatch(s.anim.command)
      case AppendSuccess(_) => assert t'[..|s.transcript|] == s.transcript;
      case AppendError(_) => assert t'[..|s.transcript|] == s.transcript;
      case Reset(_) =>
      case Navigate =>
    } else if e.Submit? && !s.typing && Trim(s.line.buffer) != [] {
      assert t'[..|s.transcript|] == s.transcript;
    }
  }

  /** Typing and the arrow keys touch only the input line: the transcript, the reveal in
      progress, `typing` and navigation stay as they were. */
  lemma EditKeepsPage(s: State, e: Event)
    requires Valid(s) && (e.Edit? || e.KeyDown?)
    ensures var r := Next(s, e);
            && r.transcript == s.transcript && r.anim == s.anim
            && r.typing == s.typing && r.navigated == s.navigated
  {
  }

  /** Once `home` has navigated away, `typing` stays set and no event changes anything. */
  lemma NavigatedIsFinal(s: State, e: Event)
    requires Valid(s) && s.navigated
    ensures Next(s, e) == s && s.typing
  {
  }

  /** While the echo of a submitted line is revealing, each step shows one more character and
      nothing else changes. */
  lemma {:induction false} EchoProgress(s: State, n: nat)
    requires Valid(s) && s.anim.Echo? && n < RevealRemaining(s)
    ensures Steps(s, n) == s.(anim := Echo(TW.Run(s.anim.tw, n), s.anim.command))
    decreases n
  {
    if n > 0 {
      EchoProgress(Next(s, Step), n - 1);
    }
  }

  /** One step of the echo: the next character, or, on its completing step, the command. */
  lemma EchoStep(s: State)
    requires Valid(s) && s.anim.Echo?
    ensures var t := TW.Step(s.anim.tw);
            Next(s, Step) == if t.fired then ProcessCommand(s, s.anim.command)
                             else s.(anim := Echo(t.next, s.anim.command))
  {
  }

  /** The echo of a submitted line completes on its last remaining step, and the echoed
      command runs then. */
  lemma EchoCompletes(s: State)
    requires Valid(s) && s.anim.Echo?
    ensures Steps(s, RevealRemaining(s)) == ProcessCommand(s, s.anim.command)
  {
    var tw := s.anim.tw;
    var n := RevealRemaining(s) - 1;
    TW.RunShowsPrefix(tw, n);
    EchoProgress(s, n);
    var u := Steps(s, n);
    StepsLast(s, n);
    EchoStep(u);
    ProcessCommandIgnoresReveal(s, u.anim, s.anim.command);
  }

  /** The command's effect does not depend on the animation that triggered it. */
  lemma ProcessCommandIgnoresReveal(s: State, rv: Reveal, cmd: string)
    ensures ProcessCommand(s.(anim := rv), cmd) == ProcessCommand(s, cmd)
  {
  }

  /** A command's output and the boot sequence each reveal for exactly their remaining steps,
      changing nothing else, and then clear `typing`: the prompt is back. */
  lemma {:induction false} ReplyCompletes(s: State)
    requires Valid(s) && (s.anim.Reply? || s.anim.Boot?)
    ensures Steps(s, RevealRemaining(s)) == s.(typing := false, anim := Idle)
    decreases RevealRemaining(s)
  {
    if s.anim.Boot? {
      LBL.StepConsumesOne(s.anim.lines);
    }
    var s' := Next(s, Step);
    if s'.anim != Idle {
      ReplyCompletes(s');
    }
  }

  /** The whole input cycle: a non-blank submitted line is echoed for one step per character of
      the prompt and the line plus one, and then exactly the raw line is dispatched. */
  lemma SubmitThenDispatch(s: State)
    requires Valid(s) && !s.typing && !AllWhitespace(s.line.buffer)
    ensures Steps(Next(s, Submit), |Prompt| + |s.line.buffer| + 1) == ProcessCommand(Next(s, Submit), s.line.buffer)
  {
    SubmitStartsEcho(s);
    EchoCompletes(Next(s, Submit));
  }

  lemma SubmitStartsEcho(s: State)
    requires Valid(s) && !s.typing && !AllWhitespace(s.line.buffer)
    ensures var r := Next(s, Submit);
            && Valid(r) && r.anim.Echo? && r.anim.command == s.line.buffer
            && RevealRemaining(r) == |Prompt| + |s.line.buffer| + 1
  {
    TrimEmptyIffBlank(s.line.buffer);
    var r := Next(s, Submit);
    assert r == HandleSubmit(s);
    assert r.anim == Echo(TW.Start(Prompt + s.line.buffer), s.line.buffer);
  }
}

=== FILE: typewriter.dfy ===
/**
  The character-by-character reveal of one string (the `TypeWriter` component). Each call of its
  inner `type` routine is one abstract step: the first runs when the component's effect runs (on
  mount, or when a re-rendered `TypeWriter` receives a new text), every later one when the
  random-delay timer fires. A step either reveals one more character or, once the whole
  text is shown, marks the reveal complete and fires the completion callback; no timer is scheduled
  after that, so a complete reveal takes no further steps.
 */
module TypeWriter {

  /** `shown` is the number of characters revealed (the source's `currentIndex`). */
  datatype State = State(text: string, shown: nat, complete: bool)

  /** What one step yields: the next state and whether the completion callback fired. */
  datatype Tick = Tick(next: State, fired: bool)

  ghost predicate Valid(s: State) {
    s.shown <= |s.text| && (s.complete ==> s.shown == |s.text|)
  }

  /** The text on screen. */
  function Displayed(s: State): (d: string)
    requires Valid(s)
    ensures d <= s.text
    ensures s.complete ==> d == s.text
  {
    s.text[..s.shown]
  }

  /** A freshly mounted reveal, before its first step. */
  function Start(text: string): (s: State)
    ensures Valid(s) && !s.complete
    ensures Displayed(s) == [] && s.text == text
  {
    State(text, 0, false)
  }

  /** One invocation of `type`. */
  function Step(s: State): (t: Tick)
    requires Valid(s)
    ensures Valid(t.next) && t.next.text == s.text
    ensures Displayed(s) <= Displayed(t.next)
    ensures s.shown < |s.text| ==> |Displayed(t.next)| == |Displayed(s)| + 1 && !t.next.complete
    ensures t.fired <==> !s.complete && Displayed(s) == s.text
    ensures t.fired ==> t.next.complete
    ensures s.complete ==> t.next == s
  {
    if s.complete then Tick(s, false)
    else if s.shown < |s.text| then Tick(s.(shown := s.shown + 1), false)
    else Tick(s.(complete := true), true)
  }

  /** Steps still to come before the reveal stops, the completing step included. */
  function Remaining(s: State): nat
    requires Valid(s)
  {
    if s.complete then 0 else |s.text| - s.shown + 1
  }


  /** The state after `n` steps. */
  function Run(s: State, n: nat): (r: State)
    requires Valid(s)
    ensures Valid(r) && r.text == s.text
    decreases n
  {
    if n == 0 then s else Run(Step(s).next, n - 1)
  }

  /** How many times the completion callback fires during `n` steps. */
  function Fired(s: State, n: nat): nat
    requires Valid(s)
    decreases n
  {
    if n == 0 then 0
    else (if Step(s).fired then 1 else 0) + Fired(Step(s).next, n - 1)
  }

  /** Every step before the last shows one more character: after `n` steps of a fresh reveal,
      exactly the first `n` characters are on screen. */
  lemma {:induction false} RunShowsPrefix(s: State, n: nat)
    requires Valid(s) && !s.complete && n < Remaining(s)
    ensures Run(s, n) == s.(shown := s.shown + n)
    ensures Displayed(Run(s, n)) == s.text[..s.shown + n]
    decreases n
  {
    if n > 0 {
      RunShowsPrefix(Step(s).next, n - 1);
    }
  }

  /** Once it has run out of steps the reveal is complete and shows the whole text. */
  lemma {:induction false} RunCompletes(s: State, n: nat)
    requires Valid(s) && n >= Remaining(s)
    ensures Run(s, n).complete && Displayed(Run(s, n)) == s.text
    decreases n
  {
    if n > 0 {
      RunCompletes(Step(s).next, n - 1);
    }
  }

  /** The completion callback fires exactly once, on step number `Remaining(s)`. */
  lemma {:induction false} FiresExactlyOnce(s: State, n: nat)
    requires Valid(s) && !s.complete
    ensures Fired(s, n) == if n >= Remaining(s) then 1 else 0
    decreases n
  {
    if n > 0 {
      var t := Step(s);
      if t.fired {
        NeverFiresAgain(t.next, n - 1);
      } else {
        FiresExactlyOnce(t.next, n - 1);
      }
    }
  }

  /** A complete reveal stays silent. */
  lemma {:induction false} NeverFiresAgain(s: State, n: nat)
    requires Valid(s) && s.complete
    ensures Fired(s, n) == 0
    decreases n
  {
    if n > 0 {
      NeverFiresAgain(Step(s).next, n - 1);
    }
  }
}

=== FILE: wrappers.dfy ===
/** The optional-value type used for table lookups. */
module Wrappers {

  datatype Option<+T> = None | Some(value: T)
}
